=== FILE: README.md ===
# War Thunder result console — Dafny model

This project models the pure logic of the console front end of the War Thunder
battle-result parser (`main.py`). The console keeps a ledger of vehicles as rows
`(name, value, flag)`, loaded from and saved to a CSV file. It merges the per-vehicle
result of a parsed battle report into that ledger. It accepts amounts typed as small
integer expressions, and it remembers whether there are unsaved changes.

Modules, one per concept:

- `Wrappers` (`wrappers.dfy`): `Option`.
- `Digits` (`digits.dfy`): ASCII decimal numerals. These are `str.isdigit`, `int(...)` and `str(...)` restricted to '0'..'9'.
- `MathExpr` (`math_expr.dfy`): the restricted evaluator `eval_math_expr` / `is_math_expr`. It works on an already parsed expression tree.
- `Validators` (`validators.dfy`): the answer checks `is_yes_no` and `is_index`.
- `Ledger` (`ledger.dfy`): rows, `_update_value`, and the merge of a parsing result. The merge is a fold over the result entries. The answers to the "entry not found" prompt are a list of choices (`i`, `n`, `e` + entry number).
- `RowCodec` (`row_codec.dfy`): the field-level CSV row codec `[name, str(value), str(flag)]` ↔ `(row[0], int(row[1]), row[2] == "True")`.
- `Console` (`console.dfy`): the application state, the command dispatch, the handlers and the command loop. It also holds the invariant `Consistent`: whenever the unsaved-changes flag is clear, the data file decodes to the ledger in memory.

User input is not read. Every answer a handler would prompt for is a parameter. A
handler returns `None` when a supplied answer is not one the prompt's validator
accepts, which means the console would keep asking. One consequence follows. With an
empty ledger, `is_index(0)` accepts nothing. So `edit`, and the merge option `e`,
wait for ever (`Ledger.AssignToEmptyLedgerWaits`, `Console.ProcessEdit`).

`main.py` has two defects (see Findings). The merge, `ProcessParse`,
`ProcessCommand` and `Run` therefore take a flag: `false` models the code as
written, `true` the corrected code. The invariant lemmas `CommandKeepsConsistent`
and `RunKeepsConsistent` hold of the corrected code only. The counterexample
lemmas show that the code as written breaks them.

The report parser `process_results` is not part of this model. `ProcessParse` takes
its result as a parameter: a list of `(name, value)` entries in dictionary order.

Python's `bool` is a subclass of `int`. So a `True`/`False` constant passes the
evaluator's `isinstance(val, int)` guard, and the model gives it the value 1/0.

## Model

| member | source | states |
|---|---|---|
| `Digits.Numeral` | main.py:187 | `str(n)` of a natural number is a non-empty digit string without leading zeros that `int` reads back as `n` |
| `Digits.LeadingZero` | main.py:49 | prefixing a `0` to a digit string does not change the value `int` reads |
| `Digits.ParseInt` | main.py:59 | `int(row[1])` only succeeds on non-empty text (its exact grammar is under Left out) |
| `Digits.IntToString` | main.py:187 | the text `str(value)` writes for an integer reads back with `int` as the same integer (unbounded; see Left out) |
| `MathExpr.EvalConstant` | main.py:25-26 | an int constant evaluates to itself, a bool constant to 1 or 0 |
| `MathExpr.EvalNeg` | main.py:27-28 | unary minus evaluates to the negated value of its operand |
| `MathExpr.EvalAdd` | main.py:29-30 | binary plus evaluates to the sum of its operands' values |
| `MathExpr.EvalSub` | main.py:29-30 | binary minus evaluates to the difference of its operands' values |
| `MathExpr.Eval` | main.py:20-37 | evaluation fails whenever the root is not a node `_eval` handles (an int or bool constant, unary `-`, binary `+` or `-`); which trees succeed and with what value is stated by the lemmas below |
| `MathExpr.EvalAcceptsExactly` | main.py:23-37 | the evaluator returns `None` exactly when some node of the tree is a non-int constant, another node kind, or an operator outside Add/Sub/USub |
| `MathExpr.IsMathExpr` | main.py:40-41 | `is_math_expr` holds exactly when every node is allowed, and exactly when the evaluator returns a value |
| `MathExpr.EvalIsSignedSum` | main.py:21-30 | the value of an accepted tree is the sum of its constants, each negated under an odd number of minus signs |
| `Validators.IsYesNo` | main.py:44-45 | only "y" and "n" are accepted |
| `Validators.IsIndex` | main.py:48-49 | an accepted answer is non-empty, and nothing is accepted when there are no entries |
| `Validators.Position` | main.py:154-156 | `int(answer) - 1` for an accepted answer is a valid position below the entry count |
| `Validators.IndexOfNumeral` | main.py:48-49 | the numeral of `k` is accepted exactly when `1 <= k <= size` |
| `Validators.LeadingZerosAccepted` | main.py:48-49 | a digit string with a leading zero is accepted exactly when it is without one, and it selects the same position |
| `Ledger.UpdateValue` | main.py:62-67 | adds `d` to row `i`'s value; row `i`'s name and flag, every other row and the length are unchanged |
| `Ledger.TotalUpdate` | main.py:62-67 | a point update changes the ledger total by exactly `d` |
| `Ledger.UpdateValueTwice` | main.py:62-67 | two updates of one row equal one update by the sum |
| `Ledger.TotalAppend` | main.py:147 | appending a row adds its value to the ledger total |
| `Ledger.FirstMatch` | main.py:127-133 | finds the first row with the name, or reports that no row has it |
| `Ledger.MergeStep` | main.py:124-156 | a zero entry is skipped; a matched entry adds to the first matching row only and sets the flag; an unmatched entry follows the answer: `i` changes nothing, `n` appends `(k, v, False)` and sets the flag, `e` adds to the chosen row if the answer is accepted; no answer left means the console waits |
| `Ledger.AddEntryAsWritten` | main.py:149-156 | the `e` branch changes the ledger but leaves the unsaved-changes flag as it was |
| `Ledger.AddEntry` | main.py:124-156 | corrected step: the flag is never cleared, and it is set whenever the ledger changes; at most one answer is used; existing rows keep place, name and flag |
| `Ledger.Merge` | main.py:123-156 | in both the as-written and the corrected loop, every existing row keeps its place, name and flag, new rows at the end carry flag False, and the flag is never cleared; only the corrected loop (`assignMarksDirty` true) flags every change |
| `Ledger.MergeTotal` | main.py:123-156 | in either variant, with no `i` answers the ledger total grows by exactly the total of the result |
| `Ledger.AssignToEmptyLedgerWaits` | main.py:149-156 | on an empty ledger the `e` answer can never be completed |
| `RowCodec.EncodeRow` | main.py:186-187 | a row is written as three fields, the first being the name |
| `RowCodec.DecodeRow` | main.py:59 | a row reads successfully exactly when it has three fields and an integer second field; the name is field 0 and the flag is `field 2 == "True"` |
| `RowCodec.RowRoundTrip` | main.py:187 | a written row read back gives the original `(name, value, flag)` |
| `RowCodec.EncodeRows` | main.py:184-187 | the file holds one encoded row per ledger row, in order |
| `RowCodec.DecodeRows` | main.py:57-59 | loading succeeds exactly when every row decodes, and gives the rows in file order |
| `RowCodec.FileRoundTrip` | main.py:184-187 | saving the ledger and loading the file gives back the same ledger |
| `Console.Load` | main.py:53-60 | a loaded app has a clear flag, its ledger is the file's rows, and it is consistent |
| `Console.FirstToken` | main.py:206 | the first token is the longest space-free prefix of the line |
| `Console.FirstTokenOfWord` | main.py:206 | a space-free word followed by nothing or by a space is the first token |
| `Console.DispatchAsWritten` | main.py:205-208 | each handler word (`list`, `parse`, `edit`, `save`, `quit`/`q`) reaches exactly its own handler; the token `command` finds `process_command` itself; tokens without a `process_` method go to the default processor |
| `Console.SelfDispatchAsWritten` | main.py:205-208 | `command` and `command <anything>` never reach a handler |
| `Console.Dispatch` | main.py:205-208 | corrected dispatch: `quit`/`q` quit, tokens without a handler are unknown, otherwise as written |
| `Console.ProcessEdit` | main.py:159-178 | without data nothing changes; otherwise the answers are accepted exactly when they are a valid entry number and a valid expression; the value is added to row `int(pick) - 1` only, the flag is set and the total grows by the value typed |
| `Console.ProcessSave` | main.py:180-189 | saving clears the flag and leaves a file that loads back as the ledger |
| `Console.HandleQuit` | main.py:191-203 | quitting always stops; without unsaved changes nothing is asked; `y` saves first and `n` drops the changes |
| `Console.UpdateEntry` | main.py:113-114 | `result[case] += value` adds to one entry; its name, the other entries and the length are unchanged |
| `Console.EntriesTotalUpdate` | main.py:113-114 | such an update changes the result's total by exactly the value added |
| `Console.EditResult` | main.py:92-118 | the edit mode completes exactly when every answer is accepted; it keeps the result's names and order, a single edit adds its value to entry `int(pick) - 1`, each entry grows by exactly the values typed for its index, and the result's total grows by the sum of the values typed |
| `Console.ProcessParse` | main.py:81-157 | parsing never writes the file; without data, or with answer `n`, the app is unchanged; a merge keeps existing rows and never clears the flag; with `fixed` true (corrected `e` branch) every change is flagged, with `fixed` false it is main.py as written; with valid `y`/`n` answers, no edits, and no data or answer `n`, the command completes; with answer `y` the ledger and flag become exactly those of merging the (edited) result by name through `Ledger.Merge` |
| `Console.ProcessCommand` | main.py:69-208 | only quit returns False; a `save`, `edit`, `parse` or `quit` line runs exactly that handler with the answers given; save always completes; list and unknown commands change nothing; with `fixed` false (as written) the line `command` never completes, with `fixed` true it is an unknown command |
| `Console.CommandKeepsConsistent` | main.py:52-208 | in the corrected program (`fixed` true) every command keeps the unsaved-changes flag honest |
| `Console.ParseAssignsToFirst` | main.py:119-156 | the `parse` command with answers `n`, `y`, `e`, `1` on ledger `[("A", 0, False)]` and result `{"B": 5}` leaves `[("A", 5, False)]`; the flag is set only in the corrected variant |
| `Console.CommandAsWrittenLosesChange` | main.py:143-156 | as written, that `parse` command leaves a changed ledger with a clear flag, breaking the flag's honesty |
| `Console.CommandCorrectedFlagsChange` | main.py:143-156 | corrected, the same command sets the flag |
| `Console.ParseAddsResult` | main.py:92-156 | with answer `y` and no `i` answers, parsing adds the report's total plus every amount typed in edit mode to the ledger's total |
| `Console.QuitKeepsWork` | main.py:191-197 | after quitting with a clear flag or with `y`, the file holds the ledger |
| `Console.AssignAsWrittenLosesChange` | main.py:143-156 | a concrete run of the `e` branch as written leaves a changed ledger with a clear flag |
| `Console.ParseKeepsConsistent` | main.py:123-157 | with the corrected merge, `process_parse` keeps the flag honest |
| `Console.Run` | main.py:221-225 | a completed session uses at least one line, the last line used is a quit command and no earlier line is one; `fixed` selects main.py as written or the corrected program |
| `Console.RunKeepsConsistent` | main.py:221-225 | in the corrected program the unsaved-changes flag stays honest through a whole session |
| `Console.SessionAsWrittenLosesChange` | main.py:191-197 | as written, the session `parse` (answers above) then `q` quits without asking, and the file still holds the old ledger |
| `Console.SessionCorrectedSavesChange` | main.py:191-197 | corrected, the same session asks at `q`, and the answer `y` leaves the new ledger in the file |

## Left out

- Console I/O is not modelled. This covers `print`, `input`, the `receive_command` retry loop (main.py:12-17) and the greeting and farewell of `run` (main.py:210-228). Answers and command lines are parameters, and a rejected answer shows as `None`.
- File I/O is not modelled. This covers `open`, `csv.reader`/`csv.writer` with their quoting and line splitting, and the reading of `input.txt` (main.py:82). The model keeps the file as a list of field lists.
- `ast.parse` is a foreign parser, so the evaluator takes the parsed tree. A `SyntaxError` from `ast.parse` is not caught at main.py:36. An amount that does not parse (main.py:111 and main.py:173) therefore escapes `receive_command` and ends the program, losing unsaved changes. An answer of type `Expr` is already parsed, so the model cannot express that case.
- `process_results`, `save_new_data_for_testing` and the regular expressions at main.py:87-89 are not modelled. The parsing module is not part of this model, and the fixture saving only has external effects.
- `process_list` only prints. It is modelled inside `ProcessCommand` as a command that changes nothing.
- Python's `RecursionError` on very deeply nested expressions is not modelled. The evaluator is total on finite trees.
- `MathExpr.Eval` returns a bool constant as the int 1/0. Python would return the `bool` itself, which behaves the same in the later additions.
- `Digits.ParseInt` accepts only an optional sign followed by ASCII digits. Python's `int` also accepts surrounding whitespace, underscores between digits and non-ASCII digits, so the model rejects some rows Python reads.
- `Digits.IntToString` has no length limit. CPython's `str()` refuses an int of more than 4300 digits and raises `ValueError`. A sum of two 4300-digit amounts can produce such a value. `print` at main.py:175 (and main.py:113 in edit mode) then ends the program before the update. `writer.writerow` at main.py:187 raises after `open(..., "w")` at main.py:184 has already emptied the file. `ProcessEdit`, `EditResult` and `ProcessSave` do not model this: they update the ledger and write any integer.
- `Validators.IsIndex` treats only ASCII digits as digits. Unicode digits that `str.isdigit` accepts and `int` rejects are not modelled, and neither is Python's limit on converting digit strings longer than 4300 characters.
- `Validators.IsIndex` states its acceptance only for canonical numerals (`IndexOfNumeral`) and numerals with one added leading zero (`LeadingZerosAccepted`), not in its own contract.

## Findings

| source | as written | input that shows it | evidently intended | confidence | as-written member | corrected member |
|---|---|---|---|---|---|---|
| main.py:149-156 | the `e` branch of the merge adds the value to the chosen row but does not set `has_unsaved_changes` | an app built as `ConsoleApp(path)` with the file row `A,0,False` (`ConsoleApp()` at main.py:232 loads no data and never reaches the merge); result `{"B": 5}`; command `parse`, answers `n` (no editing), `y` (add), `e`, `1`; then the command `q`: the ledger holds 5, the flag is clear, and quitting exits without offering to save | set `has_unsaved_changes = True` as the other two changing branches do | medium, not executed | `Ledger.AddEntryAsWritten`, `Console.CommandAsWrittenLosesChange`, `Console.SessionAsWrittenLosesChange` | `Ledger.AddEntry`, `Console.CommandKeepsConsistent`, `Console.SessionCorrectedSavesChange` |
| main.py:205-208 | `getattr(self, "process_" + token)` also finds `process_command` | the line `command`: `process_command` calls itself with the same line until Python raises `RecursionError`, which ends the program | treat `command` like any other unknown token | high, not executed | `Console.DispatchAsWritten`, `Console.SelfDispatchAsWritten` | `Console.Dispatch`, `Console.ProcessCommand` |

=== FILE: console.dfy ===
/** The command handlers of `ConsoleApp` (main.py:52-208) as functions on an immutable
    application state. Every answer the user types is a parameter; a handler returns
    None when a supplied answer is not one its prompt accepts, i.e. when the console
    would go on asking. Printing, `input()` and the `run` loop are not modelled. */
module Console {
  import opened Wrappers
  import opened MathExpr
  import opened Validators
  import opened Ledger
  import opened RowCodec

  /** `data` (None when no data file was given), `has_unsaved_changes`, and the rows
      the data file currently holds. */
  datatype App = App(data: Option<seq<Row>>, dirty: bool, file: seq<Fields>)

  /** What a handler leaves behind: the new state and its return value
      (True: keep reading commands, False: leave the loop). */
  datatype Step = Step(app: App, continues: bool)

  /** The unsaved-changes flag is honest: whenever it is clear, loading the data file
      would give back exactly the ledger in memory. */
  predicate Consistent(app: App) {
    && (app.data.None? ==> !app.dirty)
    && (app.data.Some? && !app.dirty ==> DecodeRows(app.file) == app.data)
  }

  /** `ConsoleApp(data_file_path)`: None when some row of the file fails to decode. */
  function Load(file: seq<Fields>): (r: Option<App>)
    ensures r.Some? <==> DecodeRows(file).Some?
    ensures r.Some? ==> Consistent(r.value) && !r.value.dirty && r.value.data == DecodeRows(file)
  {
    match DecodeRows(file)
    case None => None
    case Some(rows) => Some(App(Some(rows), false, file))
  }

  // ---------------------------------------------------------------------------
  // Dispatch

  /** `command.split(" ")[0]`: everything before the first space. */
  function FirstToken(line: string): (t: string)
    ensures t <= line
    ensures forall i :: 0 <= i < |t| ==> t[i] != ' '
    ensures |t| < |line| ==> line[|t|] == ' '
  {
    if |line| == 0 || line[0] == ' ' then ""
    else [line[0]] + FirstToken(line[1..])
  }

  /** A word without spaces, followed by nothing or by a space, is the first token. */
  lemma {:induction false} FirstTokenOfWord(word: string, tail: string)
    requires forall i :: 0 <= i < |word| ==> word[i] != ' '
    requires |tail| == 0 || tail[0] == ' '
    ensures FirstToken(word + tail) == word
    decreases |word|
  {
    if |word| == 0 {
      assert word + tail == tail;
    } else {
      assert (word + tail)[0] == word[0];
      assert (word + tail)[1..] == word[1..] + tail;
      FirstTokenOfWord(word[1..], tail);
      assert [word[0]] + word[1..] == word;
    }
  }

  datatype Command = List | Parse | Edit | Save | Quit | Unknown

  /** The suffixes `s` for which `ConsoleApp` has a method `process_<s>`. */
  const HandlerNames: set<string> := {"list", "parse", "edit", "save", "quit", "q", "command"}

  /** `getattr(self, "process_" + token, self.default_processor)` as main.py writes it.
      The token "command" finds `process_command` itself, which is called again with
      the same line and never reaches a handler: None. */
  function DispatchAsWritten(line: string): (r: Option<Command>)
    ensures r.None? <==> FirstToken(line) == "command"
    ensures r == Some(List) <==> FirstToken(line) == "list"
    ensures r == Some(Parse) <==> FirstToken(line) == "parse"
    ensures r == Some(Edit) <==> FirstToken(line) == "edit"
    ensures r == Some(Save) <==> FirstToken(line) == "save"
    ensures r == Some(Quit) <==> FirstToken(line) == "quit" || FirstToken(line) == "q"
    ensures r == Some(Unknown) <==> FirstToken(line) !in HandlerNames
  {
    var t := FirstToken(line);
    if t == "list" then Some(List)
    else if t == "parse" then Some(Parse)
    else if t == "edit" then Some(Edit)
    else if t == "save" then Some(Save)
    else if t == "quit" || t == "q" then Some(Quit)
    else if t == "command" then None
    else Some(Unknown)
  }

  /** Typing "command", alone or followed by arguments, re-enters `process_command`
      with the same line. */
  lemma SelfDispatchAsWritten(rest: string)
    ensures DispatchAsWritten("command").None?
    ensures DispatchAsWritten("command " + rest).None?
  {
    FirstTokenOfWord("command", "");
    FirstTokenOfWord("command", " " + rest);
    assert "command" + (" " + rest) == "command " + rest;
    assert "command" + "" == "command";
  }

  /** Dispatch with "command" treated like any other unknown token; every line now
      reaches a handler, and on every other line it agrees with main.py. */
  function Dispatch(line: string): (c: Command)
    ensures c == Quit <==> FirstToken(line) == "quit" || FirstToken(line) == "q"
    ensures c == Unknown <==> FirstToken(line) !in HandlerNames - {"command"}
    ensures DispatchAsWritten(line).Some? ==> c == DispatchAsWritten(line).value
  {
    match DispatchAsWritten(line)
    case Some(c) => c
    case None => Unknown
  }

  // ---------------------------------------------------------------------------
  // Handlers

  /** `process_edit`: the entry number and the amount typed at its two prompts. */
  function ProcessEdit(app: App, pick: string, amount: Expr): (r: Option<Step>)
    ensures app.data.None? ==> r == Some(Step(app, true))
    ensures app.data.Some? ==> (r.Some? <==> IsIndex(|app.data.value|, pick) && IsMathExpr(amount))
    ensures r.Some? ==> r.value.continues && r.value.app.file == app.file
    ensures r.Some? && app.data.Some? ==>
              && r.value.app.dirty
              && r.value.app.data.Some?
              && r.value.app.data == Some(UpdateValue(app.data.value, Position(|app.data.value|, pick), Eval(amount).value))
              && Total(r.value.app.data.value) == Total(app.data.value) + Eval(amount).value
  {
    match app.data
    case None => Some(Step(app, true))
    case Some(data) =>
      if IsIndex(|data|, pick) && IsMathExpr(amount) then
        var i := Position(|data|, pick);
        var v := Eval(amount).value;
        TotalUpdate(data, i, v);
        Some(Step(app.(data := Some(UpdateValue(data, i, v)), dirty := true), true))
      else None
  }

  /** `process_save`: writes every row to the data file and clears the flag. */
  function ProcessSave(app: App): (r: Step)
    ensures r.continues && r.app.data == app.data
    ensures app.data.None? ==> r.app == app
    ensures app.data.Some? ==> !r.app.dirty && DecodeRows(r.app.file) == app.data
  {
    match app.data
    case None => Step(app, true)
    case Some(data) =>
      FileRoundTrip(data);
      Step(App(app.data, false, EncodeRows(data)), true)
  }

  /** `handle_quit`: with unsaved changes, asks whether to save first; always stops. */
  function HandleQuit(app: App, answer: string): (r: Option<Step>)
    ensures r.Some? ==> !r.value.continues
    ensures !app.dirty ==> r == Some(Step(app, false))
    ensures app.dirty ==> (r.Some? <==> IsYesNo(answer))
    ensures r.Some? && app.dirty && answer == "y" ==> r.value.app == ProcessSave(app).app
    ensures r.Some? && answer == "n" ==> r.value.app == app
  {
    if !app.dirty then Some(Step(app, false))
    else if !IsYesNo(answer) then None
    else if answer == "y" then Some(Step(ProcessSave(app).app, false))
    else Some(Step(app, false))
  }

  /** One pass of the edit-mode loop of `process_parse`: an entry number and an amount. */
  datatype ResultEdit = ResultEdit(pick: string, amount: Expr)

  predicate AcceptedEdit(size: int, ed: ResultEdit) {
    IsIndex(size, ed.pick) && IsMathExpr(ed.amount)
  }

  /** `result[case] += value`: adds to one entry of the parsing result; its name, every
      other entry and the length stay as they were. */
  function UpdateEntry(result: seq<Entry>, i: nat, d: int): (r: seq<Entry>)
    requires i < |result|
    ensures |r| == |result|
    ensures r[i].name == result[i].name && r[i].value == result[i].value + d
    ensures forall j :: 0 <= j < |result| && j != i ==> r[j] == result[j]
  {
    result[i := Entry(result[i].name, result[i].value + d)]
  }

  lemma {:induction false} EntriesTotalUpdate(result: seq<Entry>, i: nat, d: int)
    requires i < |result|
    ensures EntriesTotal(UpdateEntry(result, i, d)) == EntriesTotal(result) + d
    decreases |result|
  {
    var r := UpdateEntry(result, i, d);
    if i == 0 {
      assert r[1..] == result[1..];
    } else {
      assert r[1..] == UpdateEntry(result[1..], i - 1, d);
      EntriesTotalUpdate(result[1..], i - 1, d);
    }
  }

  /** The amount an edit adds (0 for an amount the prompt would not accept). */
  function EditValue(ed: ResultEdit): int {
    match Eval(ed.amount)
    case Some(v) => v
    case None => 0
  }

  function EditsTotal(edits: seq<ResultEdit>): int {
    if |edits| == 0 then 0 else EditValue(edits[0]) + EditsTotal(edits[1..])
  }

  /** What the accepted edits add to entry `i` of a result with `size` entries. */
  function EditsAt(size: int, edits: seq<ResultEdit>, i: nat): int {
    if |edits| == 0 then 0
    else
      (if AcceptedEdit(size, edits[0]) && Position(size, edits[0].pick) == i then EditValue(edits[0]) else 0)
      + EditsAt(size, edits[1..], i)
  }

  /** The edit-mode loop (main.py:92-118) applied to the parsing result; the edits end
      where the user types `q`. Each accepted edit adds its amount to entry
      `int(pick) - 1`; names and order of the result never change. */
  function EditResult(result: seq<Entry>, edits: seq<ResultEdit>): (r: Option<seq<Entry>>)
    ensures r.Some? <==> forall k :: 0 <= k < |edits| ==> AcceptedEdit(|result|, edits[k])
    ensures r.Some? ==> |r.value| == |result|
    ensures r.Some? ==> forall i :: 0 <= i < |result| ==> r.value[i].name == result[i].name
    ensures r.Some? ==> EntriesTotal(r.value) == EntriesTotal(result) + EditsTotal(edits)
    ensures r.Some? ==> forall i :: 0 <= i < |result| ==> r.value[i].value == result[i].value + EditsAt(|result|, edits, i)
    ensures r.Some? && |edits| == 1 ==>
              r.value == UpdateEntry(result, Position(|result|, edits[0].pick), Eval(edits[0].amount).value)
    decreases |edits|
  {
    if |edits| == 0 then Some(result)
    else if AcceptedEdit(|result|, edits[0]) then
      var i := Position(|result|, edits[0].pick);
      var v := Eval(edits[0].amount).value;
      var updated := UpdateEntry(result, i, v);
      EntriesTotalUpdate(result, i, v);
      var rest := EditResult(updated, edits[1..]);
      assert forall k :: 1 <= k < |edits| ==> edits[k] == edits[1..][k - 1];
      rest
    else None
  }

  /** `process_parse`, given the report parser's result and the answers to its prompts:
      optionally edit the result, then optionally merge it into the ledger. `fixed`
      false is main.py as written; true uses the corrected `e` branch of the merge. */
  function ProcessParse(app: App, report: seq<Entry>, improve: string, edits: seq<ResultEdit>,
                        add: string, choices: seq<Choice>, fixed: bool): (r: Option<Step>)
    ensures r.Some? ==> r.value.continues && r.value.app.file == app.file && IsYesNo(improve)
    ensures r.Some? && (app.data.None? || add == "n") ==> r.value.app == app
    ensures r.Some? && app.data.Some? ==>
              && r.value.app.data.Some?
              && KeepsRows(app.data.value, r.value.app.data.value)
              && (app.dirty ==> r.value.app.dirty)
              && (fixed && r.value.app.data != app.data ==> r.value.app.dirty)
    ensures IsYesNo(improve) && (improve == "n" || edits == []) && (app.data.None? || add == "n") ==> r.Some?
    ensures r.Some? && app.data.Some? && add == "y" ==>
              && (improve == "y" ==> EditResult(report, edits).Some?)
              && var result := if improve == "y" then EditResult(report, edits).value else report;
                 var m := Merge(app.data.value, app.dirty, result, choices, fixed);
                 m.Some? && r.value.app == app.(data := Some(m.value.data), dirty := m.value.dirty)
  {
    if !IsYesNo(improve) then None
    else
      var edited := if improve == "y" then EditResult(report, edits) else Some(report);
      match edited
      case None => None
      case Some(result) =>
        match app.data
        case None => Some(Step(app, true))
        case Some(data) =>
          if !IsYesNo(add) then None
          else if add == "n" then Some(Step(app, true))
          else
            match Merge(data, app.dirty, result, choices, fixed)
            case None => None
            case Some(m) => Some(Step(app.(data := Some(m.data), dirty := m.dirty), true))
  }

  /** Everything a command may need: the report parser's result and the answers typed
      at the prompts the handlers show. */
  datatype Answers = Answers(
    pick: string, amount: Expr,
    report: seq<Entry>, improve: string, edits: seq<ResultEdit>, add: string, choices: seq<Choice>,
    saveOnQuit: string)

  /** `process_command`: dispatch on the first token and run the handler. With `fixed`
      false this is main.py as written: the line "command" never completes (None), and
      the merge leaves the flag alone on the `e` branch. With `fixed` true it uses the
      corrected `Dispatch` and the corrected merge. */
  function ProcessCommand(app: App, line: string, ans: Answers, fixed: bool): (r: Option<Step>)
    ensures r.Some? ==> (r.value.continues <==> Dispatch(line) != Quit)
    ensures !fixed && FirstToken(line) == "command" ==> r.None?
    ensures (fixed || FirstToken(line) != "command") && (Dispatch(line) == List || Dispatch(line) == Unknown) ==>
              r == Some(Step(app, true))
    ensures Dispatch(line) == Save ==> r.Some?
    ensures Dispatch(line) == Save ==> r == Some(ProcessSave(app))
    ensures Dispatch(line) == Edit ==> r == ProcessEdit(app, ans.pick, ans.amount)
    ensures Dispatch(line) == Parse ==> r == ProcessParse(app, ans.report, ans.improve, ans.edits, ans.add, ans.choices, fixed)
    ensures Dispatch(line) == Quit ==> r == HandleQuit(app, ans.saveOnQuit)
  {
    var command := if fixed then Some(Dispatch(line)) else DispatchAsWritten(line);
    match command
    case None => None
    case Some(c) =>
      match c
      case List => Some(Step(app, true))
      case Parse => ProcessParse(app, ans.report, ans.improve, ans.edits, ans.add, ans.choices, fixed)
      case Edit => ProcessEdit(app, ans.pick, ans.amount)
      case Save => Some(ProcessSave(app))
      case Quit => HandleQuit(app, ans.saveOnQuit)
      case Unknown => Some(Step(app, true))
  }

  // ---------------------------------------------------------------------------
  // Properties of whole commands

  /** In the corrected program every command keeps the unsaved-changes flag honest. */
  lemma CommandKeepsConsistent(app: App, line: string, ans: Answers)
    requires Consistent(app)
    ensures ProcessCommand(app, line, ans, true).Some? ==> Consistent(ProcessCommand(app, line, ans, true).value.app)
  {
  }

  /** The answers of a `parse` command that merges the result {"B": 5} without editing
      it, assigning the unmatched "B" to entry 1. */
  function AssignBToFirst(): Answers {
    Answers("", Other, [Entry("B", 5)], "n", [], "y", [AssignTo("1")], "y")
  }

  /** In main.py as written a single `parse` command breaks the flag's honesty: a
      freshly loaded ledger ["A", 0, False] takes {"B": 5} on entry 1 and ends with
      a changed ledger and a clear flag. */
  lemma CommandAsWrittenLosesChange()
    ensures var data := [Row("A", 0, false)];
            var app := App(Some(data), false, EncodeRows(data));
            var r := ProcessCommand(app, "parse", AssignBToFirst(), false);
            && Consistent(app)
            && r == Some(Step(App(Some([Row("A", 5, false)]), false, EncodeRows(data)), true))
            && !Consistent(r.value.app)
  {
    var data := [Row("A", 0, false)];
    FileRoundTrip(data);
    ParseAssignsToFirst(false);
  }

  /** The corrected `parse` command makes the same change and sets the flag. */
  lemma CommandCorrectedFlagsChange()
    ensures var data := [Row("A", 0, false)];
            var app := App(Some(data), false, EncodeRows(data));
            ProcessCommand(app, "parse", AssignBToFirst(), true)
              == Some(Step(App(Some([Row("A", 5, false)]), true, EncodeRows(data)), true))
  {
    ParseAssignsToFirst(true);
  }

  /** The concrete `parse` run behind the first finding, in both variants: the ledger
      becomes ["A", 5, False], and the flag is set only when `fixed`. */
  lemma ParseAssignsToFirst(fixed: bool)
    ensures var data := [Row("A", 0, false)];
            var app := App(Some(data), false, EncodeRows(data));
            ProcessCommand(app, "parse", AssignBToFirst(), fixed)
              == Some(Step(App(Some([Row("A", 5, false)]), fixed, EncodeRows(data)), true))
  {
    DispatchWord("parse");
    MergeAssignsToFirst(fixed);
  }

  /** A command word typed alone dispatches to its handler. */
  lemma DispatchWord(word: string)
    requires word in HandlerNames - {"command"}
    ensures FirstToken(word) == word
    ensures DispatchAsWritten(word) == Some(Dispatch(word))
  {
    FirstTokenOfWord(word, "");
    assert word + "" == word;
  }

  /** The merge inside that run: {"B": 5} assigned to entry 1 of ["A", 0, False]. */
  lemma MergeAssignsToFirst(fixed: bool)
    ensures Merge([Row("A", 0, false)], false, [Entry("B", 5)], [AssignTo("1")], fixed)
              == Some(Merged([Row("A", 5, false)], fixed, []))
  {
    var data := [Row("A", 0, false)];
    assert Digits.NumeralValue("1") == 1 by {
      assert "1"[..0] == "";
    }
    var m := MergeStep(data, false, Entry("B", 5), [AssignTo("1")], fixed);
    assert m.value.data == [Row("A", 5, false)];
    assert m == Some(Merged([Row("A", 5, false)], fixed, []));
  }

  /** A session of two lines: the first command continues, the second stops. */
  lemma RunTwoTurns(app: App, first: Turn, second: Turn, fixed: bool, middle: App, last: App)
    requires ProcessCommand(app, first.line, first.answers, fixed) == Some(Step(middle, true))
    requires ProcessCommand(middle, second.line, second.answers, fixed) == Some(Step(last, false))
    ensures Run(app, [first, second], fixed) == Some((last, 2))
  {
    assert [first, second][1..] == [second];
    assert Run(middle, [second], fixed) == Some((last, 1));
  }

  /** When no "not found" answer is `i`, `process_parse` with answer `y` adds the whole
      (possibly edited) result to the ledger: the total grows by the report's total plus
      every amount typed in edit mode. */
  lemma {:induction false} ParseAddsResult(app: App, report: seq<Entry>, improve: string, edits: seq<ResultEdit>,
                                           choices: seq<Choice>, fixed: bool)
    requires NoIgnore(choices) && app.data.Some?
    ensures var r := ProcessParse(app, report, improve, edits, "y", choices, fixed);
            r.Some? ==> Total(r.value.app.data.value)
                        == Total(app.data.value) + EntriesTotal(report) + (if improve == "y" then EditsTotal(edits) else 0)
  {
    if IsYesNo(improve) {
      var edited := if improve == "y" then EditResult(report, edits) else Some(report);
      if edited.Some? {
        MergeTotal(app.data.value, app.dirty, edited.value, choices, fixed);
      }
    }
  }

  /** Quitting loses nothing the user did not choose to drop: with a clear flag, or with
      the answer "y" to the save prompt, the data file holds the ledger afterwards. */
  lemma QuitKeepsWork(app: App, answer: string)
    requires Consistent(app) && app.data.Some?
    ensures var r := HandleQuit(app, answer);
            r.Some? && (!app.dirty || answer == "y") ==> DecodeRows(r.value.app.file) == app.data
  {
  }

  /** The `e` branch as main.py writes it breaks the flag's honesty on its own: a
      freshly loaded ledger ["A", 0, False] receives {"B": 5} assigned to entry 1; the
      ledger now differs from the file, yet the flag is still clear. */
  lemma AssignAsWrittenLosesChange()
    ensures var data := [Row("A", 0, false)];
            var m := AddEntryAsWritten(data, false, Entry("B", 5), [AssignTo("1")]);
            && Consistent(App(Some(data), false, EncodeRows(data)))
            && m.Some?
            && !Consistent(App(Some(m.value.data), m.value.dirty, EncodeRows(data)))
  {
    var data := [Row("A", 0, false)];
    FileRoundTrip(data);
    assert Digits.NumeralValue("1") == 1 by {
      assert "1"[..0] == "";
    }
    var m := AddEntryAsWritten(data, false, Entry("B", 5), [AssignTo("1")]);
    assert m.value.data[0].value == 5;
  }

  /** With the corrected merge, `process_parse` keeps the flag honest for every
      result and every answer. */
  lemma ParseKeepsConsistent(app: App, report: seq<Entry>, improve: string, edits: seq<ResultEdit>,
                             add: string, choices: seq<Choice>)
    requires Consistent(app)
    ensures ProcessParse(app, report, improve, edits, add, choices, true).Some? ==>
              Consistent(ProcessParse(app, report, improve, edits, add, choices, true).value.app)
  {
  }

  // ---------------------------------------------------------------------------
  // A whole session

  /** One command line typed at the `>>>` prompt, with the answers its handler needs. */
  datatype Turn = Turn(line: string, answers: Answers)

  /** The `while self.process_command(command)` loop of `run` (main.py:221-225) over the
      lines typed: stops after the first command that returns False. The result is the
      final state and how many lines were used; None when some command never completes
      (a handler keeps waiting for an answer, or, as written, the line "command"
      recurses), or when the lines run out before a quit. `fixed` as in `ProcessCommand`. */
  function Run(app: App, turns: seq<Turn>, fixed: bool): (r: Option<(App, nat)>)
    ensures r.Some? ==> 0 < r.value.1 <= |turns|
    ensures r.Some? ==> Dispatch(turns[r.value.1 - 1].line) == Quit
    ensures r.Some? ==> forall k :: 0 <= k < r.value.1 - 1 ==> Dispatch(turns[k].line) != Quit
    decreases |turns|
  {
    if |turns| == 0 then None
    else
      match ProcessCommand(app, turns[0].line, turns[0].answers, fixed)
      case None => None
      case Some(step) =>
        if !step.continues then Some((step.app, 1))
        else
          match Run(step.app, turns[1..], fixed)
          case None => None
          case Some((last, used)) => Some((last, used + 1))
  }

  /** In the corrected program the unsaved-changes flag stays honest through a whole
      session. */
  lemma {:induction false} RunKeepsConsistent(app: App, turns: seq<Turn>)
    requires Consistent(app)
    ensures Run(app, turns, true).Some? ==> Consistent(Run(app, turns, true).value.0)
    decreases |turns|
  {
    if |turns| > 0 {
      CommandKeepsConsistent(app, turns[0].line, turns[0].answers);
      var step := ProcessCommand(app, turns[0].line, turns[0].answers, true);
      if step.Some? && step.value.continues {
        RunKeepsConsistent(step.value.app, turns[1..]);
      }
    }
  }

  /** The session `parse` (answers as in `AssignBToFirst`) then `q`, as written: the
      quit asks nothing and the file still holds the old ledger. */
  lemma SessionAsWrittenLosesChange()
    ensures var data := [Row("A", 0, false)];
            var app := App(Some(data), false, EncodeRows(data));
            var r := Run(app, [Turn("parse", AssignBToFirst()), Turn("q", AssignBToFirst())], false);
            && r.Some? && r.value.1 == 2
            && r.value.0.data == Some([Row("A", 5, false)])
            && DecodeRows(r.value.0.file) == Some(data)
  {
    var data := [Row("A", 0, false)];
    var app := App(Some(data), false, EncodeRows(data));
    FileRoundTrip(data);
    ParseAssignsToFirst(false);
    DispatchWord("q");
    var after := App(Some([Row("A", 5, false)]), false, EncodeRows(data));
    RunTwoTurns(app, Turn("parse", AssignBToFirst()), Turn("q", AssignBToFirst()), false, after, after);
  }

  /** The same session, corrected: the quit asks, and the answer "y" saves the new
      ledger to the file. */
  lemma SessionCorrectedSavesChange()
    ensures var data := [Row("A", 0, false)];
            var app := App(Some(data), false, EncodeRows(data));
            var r := Run(app, [Turn("parse", AssignBToFirst()), Turn("q", AssignBToFirst())], true);
            && r.Some? && r.value.1 == 2
            && r.value.0.data == Some([Row("A", 5, false)])
            && DecodeRows(r.value.0.file) == Some([Row("A", 5, false)])
  {
    var data := [Row("A", 0, false)];
    var app := App(Some(data), false, EncodeRows(data));
    ParseAssignsToFirst(true);
    DispatchWord("q");
    var after := App(Some([Row("A", 5, false)]), true, EncodeRows(data));
    var saved := ProcessSave(after).app;
    RunTwoTurns(app, Turn("parse", AssignBToFirst()), Turn("q", AssignBToFirst()), true, after, saved);
  }

}

=== FILE: digits.dfy ===
/** Decimal numerals over ASCII digits: the `str.isdigit` / `int(...)` / `str(...)`
    behaviour of main.py restricted to the characters '0'..'9'. */
module Digits {
  import opened Wrappers

  predicate IsDigit(c: char) {
    '0' <= c <= '9'
  }

  function DigitValue(c: char): nat
    requires IsDigit(c)
  {
    c as int - '0' as int
  }

  function DigitChar(d: nat): (c: char)
    requires d < 10
    ensures IsDigit(c) && DigitValue(c) == d
  {
    (d + '0' as int) as char
  }

  predicate AllDigits(s: string) {
    forall i :: 0 <= i < |s| ==> IsDigit(s[i])
  }

  /** `s.isdigit()` on ASCII text: non-empty and every character a digit. */
  predicate IsNumeral(s: string) {
    |s| > 0 && AllDigits(s)
  }

  /** The value `int(s)` gives for a string of digits; leading zeros are allowed. */
  function NumeralValue(s: string): nat
    requires AllDigits(s)
    decreases |s|
  {
    if |s| == 0 then 0 else NumeralValue(s[..|s| - 1]) * 10 + DigitValue(s[|s| - 1])
  }

  /** `str(n)` for a natural number: the canonical numeral, which reads back as `n`. */
  function Numeral(n: nat): (s: string)
    ensures IsNumeral(s)
    ensures NumeralValue(s) == n
    ensures s[0] == '0' ==> s == "0"
  {
    if n < 10 then [DigitChar(n)]
    else
      var prefix := Numeral(n / 10);
      var s := prefix + [DigitChar(n % 10)];
      assert s[..|s| - 1] == prefix;
      s
  }

  /** A leading zero never changes the value `int` reads. */
  lemma {:induction false} LeadingZero(s: string)
    requires AllDigits(s)
    ensures AllDigits("0" + s)
    ensures NumeralValue("0" + s) == NumeralValue(s)
    decreases |s|
  {
    var z := "0" + s;
    if |s| > 0 {
      var init := s[..|s| - 1];
      assert z[..|z| - 1] == "0" + init;
      LeadingZero(init);
    }
  }

  /** `int(t)` restricted to an optional sign followed by ASCII digits. */
  function ParseInt(t: string): (r: Option<int>)
    ensures r.Some? ==> |t| > 0
  {
    if |t| > 0 && (t[0] == '-' || t[0] == '+') then
      if IsNumeral(t[1..]) then
        var magnitude: int := NumeralValue(t[1..]);
        Some(if t[0] == '-' then -magnitude else magnitude)
      else None
    else if IsNumeral(t) then Some(NumeralValue(t))
    else None
  }

  /** `str(i)` for an integer; reading it back with `int` gives `i` again. */
  function IntToString(i: int): (t: string)
    ensures ParseInt(t) == Some(i)
  {
    if i < 0 then
      var digits := Numeral(-i);
      assert ("-" + digits)[1..] == digits;
      "-" + digits
    else Numeral(i)
  }

}

=== FILE: ledger.dfy ===
/** The ledger `list[(name, value, flag)]` of a `ConsoleApp` and the two ways it is
    changed: the point update `_update_value` (main.py:62-67) and the merge of a
    parsing result into it (main.py:123-156), written as a fold over the result's
    entries with the answers to the "not found" prompt supplied as a list. */
module Ledger {
  import opened Wrappers
  import opened Validators

  /** One ledger row: vehicle name, accumulated value and the third CSV column. */
  datatype Row = Row(name: string, value: int, flag: bool)

  /** One `(key, value)` item of the parsing result dictionary, in insertion order. */
  datatype Entry = Entry(name: string, value: int)

  function Total(data: seq<Row>): int {
    if |data| == 0 then 0 else data[0].value + Total(data[1..])
  }

  function EntriesTotal(entries: seq<Entry>): int {
    if |entries| == 0 then 0 else entries[0].value + EntriesTotal(entries[1..])
  }

  /** `_update_value(index, value)`: adds to one row's value; the row's name and flag,
      every other row and the length stay as they were. */
  function UpdateValue(data: seq<Row>, i: nat, d: int): (r: seq<Row>)
    requires i < |data|
    ensures |r| == |data|
    ensures r[i].name == data[i].name && r[i].flag == data[i].flag
    ensures r[i].value == data[i].value + d
    ensures forall j :: 0 <= j < |data| && j != i ==> r[j] == data[j]
  {
    data[i := Row(data[i].name, data[i].value + d, data[i].flag)]
  }

  lemma {:induction false} TotalUpdate(data: seq<Row>, i: nat, d: int)
    requires i < |data|
    ensures Total(UpdateValue(data, i, d)) == Total(data) + d
    decreases |data|
  {
    var r := UpdateValue(data, i, d);
    if i == 0 {
      assert r[1..] == data[1..];
    } else {
      assert r[1..] == UpdateValue(data[1..], i - 1, d);
      TotalUpdate(data[1..], i - 1, d);
    }
  }

  lemma {:induction false} TotalAppend(data: seq<Row>, row: Row)
    ensures Total(data + [row]) == Total(data) + row.value
    decreases |data|
  {
    if |data| == 0 {
      assert data + [row] == [row];
      assert Total([row]) == row.value + Total([]);
    } else {
      assert (data + [row])[1..] == data[1..] + [row];
      TotalAppend(data[1..], row);
    }
  }

  /** Two updates of the same row add up. */
  lemma UpdateValueTwice(data: seq<Row>, i: nat, a: int, b: int)
    requires i < |data|
    ensures UpdateValue(UpdateValue(data, i, a), i, b) == UpdateValue(data, i, a + b)
  {
  }

  // ---------------------------------------------------------------------------
  // Looking a name up

  predicate IsFirstMatch(data: seq<Row>, name: string, i: nat) {
    i < |data| && data[i].name == name && forall j :: 0 <= j < i ==> data[j].name != name
  }

  predicate Unmatched(data: seq<Row>, name: string) {
    forall j :: 0 <= j < |data| ==> data[j].name != name
  }

  /** The inner `for ... break` loop: the position of the first row named `name`. */
  function FirstMatch(data: seq<Row>, name: string): (r: Option<nat>)
    ensures r.Some? ==> IsFirstMatch(data, name, r.value)
    ensures r.None? <==> Unmatched(data, name)
    decreases |data|
  {
    if |data| == 0 then None
    else if data[0].name == name then Some(0)
    else
      match FirstMatch(data[1..], name)
      case Some(i) => Some(i + 1)
      case None => None
  }

  // ---------------------------------------------------------------------------
  // Merging a parsing result

  /** The answer typed at the "was not found" prompt: `i`, `n`, or `e` followed by
      the entry number accepted by `is_index(len(data))`. */
  datatype Choice = Ignore | AddNew | AssignTo(answer: string)

  /** The ledger, its unsaved-changes flag, and the prompt answers not yet used. */
  datatype Merged = Merged(data: seq<Row>, dirty: bool, pending: seq<Choice>)

  /** One iteration of the merge loop. `assignMarksDirty` says whether the `e` branch
      sets the unsaved-changes flag; main.py as written does not (see `AddEntryAsWritten`).
      None: the supplied answer is not one the prompt accepts (or none is left), so the
      console keeps asking. */
  function MergeStep(data: seq<Row>, dirty: bool, e: Entry, choices: seq<Choice>, assignMarksDirty: bool): (r: Option<Merged>)
    ensures e.value == 0 ==> r == Some(Merged(data, dirty, choices))
    ensures e.value != 0 ==>
              forall i :: IsFirstMatch(data, e.name, i) ==> r == Some(Merged(UpdateValue(data, i, e.value), true, choices))
    ensures e.value != 0 && Unmatched(data, e.name) ==>
              && (|choices| == 0 ==> r.None?)
              && (|choices| > 0 && choices[0] == Ignore ==> r == Some(Merged(data, dirty, choices[1..])))
              && (|choices| > 0 && choices[0] == AddNew ==>
                    r == Some(Merged(data + [Row(e.name, e.value, false)], true, choices[1..])))
              && (|choices| > 0 && choices[0].AssignTo? ==>
                    && (r.Some? <==> IsIndex(|data|, choices[0].answer))
                    && (r.Some? ==> r.value.data == UpdateValue(data, Position(|data|, choices[0].answer), e.value)
                                    && r.value.dirty == (dirty || assignMarksDirty)
                                    && r.value.pending == choices[1..]))
    ensures r.Some? ==> (dirty ==> r.value.dirty) && KeepsRows(data, r.value.data)
    ensures r.Some? ==> r.value.pending == choices || (|choices| > 0 && r.value.pending == choices[1..])
    ensures r.Some? && assignMarksDirty && r.value.data != data ==> r.value.dirty
  {
    if e.value == 0 then Some(Merged(data, dirty, choices))
    else
      match FirstMatch(data, e.name)
      case Some(i) => Some(Merged(UpdateValue(data, i, e.value), true, choices))
      case None =>
        if |choices| == 0 then None
        else
          match choices[0]
          case Ignore => Some(Merged(data, dirty, choices[1..]))
          case AddNew => Some(Merged(data + [Row(e.name, e.value, false)], true, choices[1..]))
          case AssignTo(answer) =>
            if IsIndex(|data|, answer) then
              Some(Merged(UpdateValue(data, Position(|data|, answer), e.value), dirty || assignMarksDirty, choices[1..]))
            else None
  }

  /** The merge loop body as main.py writes it: assigning an unmatched entry to another
      row with `e` changes the ledger but leaves `has_unsaved_changes` unchanged. */
  function AddEntryAsWritten(data: seq<Row>, dirty: bool, e: Entry, choices: seq<Choice>): (r: Option<Merged>)
    ensures e.value != 0 && Unmatched(data, e.name) && |choices| > 0 && choices[0].AssignTo? && r.Some? ==>
              r.value.dirty == dirty && r.value.data != data
  {
    MergeStep(data, dirty, e, choices, false)
  }

  /** The merge loop body with the `e` branch also setting `has_unsaved_changes`:
      whenever the ledger changes, the flag is set. */
  function AddEntry(data: seq<Row>, dirty: bool, e: Entry, choices: seq<Choice>): (r: Option<Merged>)
    ensures r.Some? ==> (dirty ==> r.value.dirty) && (r.value.data != data ==> r.value.dirty)
    ensures r.Some? ==> r.value.pending == choices || (|choices| > 0 && r.value.pending == choices[1..])
    ensures r.Some? ==> KeepsRows(data, r.value.data)
  {
    MergeStep(data, dirty, e, choices, true)
  }

  /** `after` keeps every row of `before` in place with its name and flag, and every
      row it adds at the end carries flag False. */
  predicate KeepsRows(before: seq<Row>, after: seq<Row>) {
    && |before| <= |after|
    && (forall i :: 0 <= i < |before| ==> after[i].name == before[i].name && after[i].flag == before[i].flag)
    && (forall i :: |before| <= i < |after| ==> !after[i].flag)
  }

  lemma KeepsRowsTransitive(a: seq<Row>, b: seq<Row>, c: seq<Row>)
    requires KeepsRows(a, b) && KeepsRows(b, c)
    ensures KeepsRows(a, c)
  {
  }

  /** The `for k, v in result.items()` loop: `assignMarksDirty` false is main.py as
      written (`AddEntryAsWritten` in every iteration), true the corrected loop
      (`AddEntry`). Either way the flag is never cleared and existing rows keep their
      place; only the corrected loop flags every change. */
  function Merge(data: seq<Row>, dirty: bool, entries: seq<Entry>, choices: seq<Choice>, assignMarksDirty: bool): (r: Option<Merged>)
    ensures r.Some? ==> KeepsRows(data, r.value.data)
    ensures r.Some? ==> (dirty ==> r.value.dirty)
    ensures r.Some? && assignMarksDirty ==> (r.value.data != data ==> r.value.dirty)
    decreases |entries|
  {
    if |entries| == 0 then Some(Merged(data, dirty, choices))
    else
      match MergeStep(data, dirty, entries[0], choices, assignMarksDirty)
      case None => None
      case Some(m) =>
        match Merge(m.data, m.dirty, entries[1..], m.pending, assignMarksDirty)
        case None => None
        case Some(rest) =>
          KeepsRowsTransitive(data, m.data, rest.data);
          Some(rest)
  }

  predicate NoIgnore(choices: seq<Choice>) {
    forall i :: 0 <= i < |choices| ==> choices[i] != Ignore
  }

  /** When no answer says `i`, every value of the result ends up in the ledger:
      the ledger total grows by exactly the result total. */
  lemma {:induction false} MergeTotal(data: seq<Row>, dirty: bool, entries: seq<Entry>, choices: seq<Choice>, assignMarksDirty: bool)
    requires NoIgnore(choices)
    ensures Merge(data, dirty, entries, choices, assignMarksDirty).Some? ==>
              Total(Merge(data, dirty, entries, choices, assignMarksDirty).value.data) == Total(data) + EntriesTotal(entries)
    decreases |entries|
  {
    if |entries| > 0 {
      var e := entries[0];
      var step := MergeStep(data, dirty, e, choices, assignMarksDirty);
      if step.Some? {
        var m := step.value;
        if e.value != 0 {
          match FirstMatch(data, e.name)
          case Some(i) => TotalUpdate(data, i, e.value);
          case None =>
            assert choices[0] != Ignore;
            if choices[0] == AddNew {
              TotalAppend(data, Row(e.name, e.value, false));
            } else {
              TotalUpdate(data, Position(|data|, choices[0].answer), e.value);
            }
        }
        assert NoIgnore(m.pending);
        MergeTotal(m.data, m.dirty, entries[1..], m.pending, assignMarksDirty);
      }
    }
  }

  /** With an empty ledger `is_index(0)` accepts no answer, so choosing `e` for an
      unmatched entry leaves the console waiting for ever. */
  lemma AssignToEmptyLedgerWaits(e: Entry, dirty: bool, choices: seq<Choice>)
    requires e.value != 0 && |choices| > 0 && choices[0].AssignTo?
    ensures AddEntry([], dirty, e, choices).None?
    ensures AddEntryAsWritten([], dirty, e, choices).None?
  {
  }

}

=== FILE: math_expr.dfy ===
/** The restricted integer expression evaluator `eval_math_expr` / `is_math_expr`
    (main.py:20-41). The evaluator receives the tree `ast.parse(command, mode='eval')`
    produced; parsing itself is not part of this model. */
module MathExpr {
  import opened Wrappers

  /** The value carried by an `ast.Constant`. Python's `bool` is a subclass of
      `int`, so `True`/`False` pass the `isinstance(val, int)` guard as 1/0;
      every other constant (float, complex, str, bytes, None, ...) is `OtherLiteral`. */
  datatype Literal = IntLiteral(i: int) | BoolLiteral(b: bool) | OtherLiteral

  /** The operator classes of `ast.UnaryOp`. */
  datatype UnaryOperator = UAdd | USub | Not | Invert

  /** The operator classes of `ast.BinOp`. */
  datatype BinaryOperator =
    | Add | Sub | Mult | MatMult | Div | Mod | Pow
    | LShift | RShift | BitOr | BitXor | BitAnd | FloorDiv

  /** An expression tree; `Other` stands for every remaining node kind
      (names, calls, comparisons, boolean operators, subscripts, ...). */
  datatype Expr =
    | Constant(literal: Literal)
    | UnaryOp(uop: UnaryOperator, operand: Expr)
    | BinOp(left: Expr, bop: BinaryOperator, right: Expr)
    | Other

  function IntOf(lit: Literal): Option<int> {
    match lit
    case IntLiteral(i) => Some(i)
    case BoolLiteral(b) => Some(if b then 1 else 0)
    case OtherLiteral => None
  }

  /** `_eval`: None stands for the `ValueError` that `eval_math_expr` turns into `None`. */
  function Eval(e: Expr): (r: Option<int>)
    ensures r.Some? ==> AllowedNode(e)
  {
    match e
    case Constant(lit) => IntOf(lit)
    case UnaryOp(op, x) =>
      if op == USub then
        match Eval(x)
        case Some(v) => Some(-v)
        case None => None
      else None
    case BinOp(l, op, r) =>
      if op == Add || op == Sub then
        var a := Eval(l);
        var b := Eval(r);
        if a.None? || b.None? then None
        else if op == Add then Some(a.value + b.value)
        else Some(a.value - b.value)
      else None
    case Other => None
  }

  /** An int constant evaluates to itself; a bool constant to 1 or 0. */
  lemma EvalConstant(lit: Literal)
    ensures lit.IntLiteral? ==> Eval(Constant(lit)) == Some(lit.i)
    ensures lit.BoolLiteral? ==> Eval(Constant(lit)) == Some(if lit.b then 1 else 0)
  {
  }

  /** Unary minus negates the value of its operand. */
  lemma EvalNeg(x: Expr, v: int)
    requires Eval(x) == Some(v)
    ensures Eval(UnaryOp(USub, x)) == Some(-v)
  {
  }

  /** Binary plus adds the values of its operands. */
  lemma EvalAdd(l: Expr, r: Expr, a: int, b: int)
    requires Eval(l) == Some(a) && Eval(r) == Some(b)
    ensures Eval(BinOp(l, Add, r)) == Some(a + b)
  {
  }

  /** Binary minus subtracts the value of its right operand from the left one. */
  lemma EvalSub(l: Expr, r: Expr, a: int, b: int)
    requires Eval(l) == Some(a) && Eval(r) == Some(b)
    ensures Eval(BinOp(l, Sub, r)) == Some(a - b)
  {
  }

  // ---------------------------------------------------------------------------
  // Acceptance, characterised node by node

  /** Every node of the tree, parent before children. */
  function Nodes(e: Expr): (ns: seq<Expr>)
    ensures |ns| > 0 && ns[0] == e
  {
    match e
    case Constant(_) => [e]
    case UnaryOp(_, x) => [e] + Nodes(x)
    case BinOp(l, _, r) => [e] + Nodes(l) + Nodes(r)
    case Other => [e]
  }

  /** Whether a single node, ignoring its children, is one the evaluator handles:
      an int (or bool) constant, unary minus, or binary plus/minus. */
  predicate AllowedNode(n: Expr) {
    match n
    case Constant(lit) => IntOf(lit).Some?
    case UnaryOp(op, _) => op == USub
    case BinOp(_, op, _) => op == Add || op == Sub
    case Other => false
  }

  predicate AllAllowed(ns: seq<Expr>) {
    forall i :: 0 <= i < |ns| ==> AllowedNode(ns[i])
  }

  lemma AllAllowedConcat(a: seq<Expr>, b: seq<Expr>)
    ensures AllAllowed(a + b) <==> AllAllowed(a) && AllAllowed(b)
  {
    if AllAllowed(a + b) {
      forall i | 0 <= i < |a| ensures AllowedNode(a[i]) {
        assert a[i] == (a + b)[i];
      }
      forall i | 0 <= i < |b| ensures AllowedNode(b[i]) {
        assert b[i] == (a + b)[|a| + i];
      }
    }
  }

  /** The evaluator fails exactly when some node of the tree is a non-int constant,
      a name/call/other node, or an operator outside {Add, Sub, USub}. */
  lemma {:induction false} EvalAcceptsExactly(e: Expr)
    ensures Eval(e).Some? <==> AllAllowed(Nodes(e))
  {
    match e
    case Constant(_) =>
    case UnaryOp(_, x) =>
      EvalAcceptsExactly(x);
      AllAllowedConcat([e], Nodes(x));
    case BinOp(l, _, r) =>
      EvalAcceptsExactly(l);
      EvalAcceptsExactly(r);
      AllAllowedConcat([e], Nodes(l));
      AllAllowedConcat([e] + Nodes(l), Nodes(r));
    case Other =>
  }

  /** `is_math_expr`: the command is accepted exactly when every node is allowed. */
  function IsMathExpr(e: Expr): (ok: bool)
    ensures ok <==> AllAllowed(Nodes(e))
    ensures ok <==> Eval(e).Some?
  {
    EvalAcceptsExactly(e);
    Eval(e).Some?
  }

  // ---------------------------------------------------------------------------
  // Value, characterised as a signed sum of the constants

  function Sum(xs: seq<int>): int {
    if |xs| == 0 then 0 else xs[0] + Sum(xs[1..])
  }

  lemma {:induction false} SumConcat(a: seq<int>, b: seq<int>)
    ensures Sum(a + b) == Sum(a) + Sum(b)
    decreases |a|
  {
    if |a| == 0 {
      assert a + b == b;
    } else {
      assert (a + b)[1..] == a[1..] + b;
      SumConcat(a[1..], b);
    }
  }

  /** The integer constants of the tree in left-to-right order, each negated when an
      odd number of unary minuses and right operands of minus lie above it. */
  function SignedConstants(e: Expr, negated: bool): seq<int> {
    match e
    case Constant(lit) =>
      (match IntOf(lit)
       case Some(c) => [if negated then -c else c]
       case None => [])
    case UnaryOp(_, x) => SignedConstants(x, !negated)
    case BinOp(l, op, r) => SignedConstants(l, negated) + SignedConstants(r, if op == Sub then !negated else negated)
    case Other => []
  }

  /** An accepted tree's value is the sum of its signed constants. */
  lemma {:induction false} EvalIsSignedSum(e: Expr, negated: bool)
    requires Eval(e).Some?
    ensures Sum(SignedConstants(e, negated)) == (if negated then -Eval(e).value else Eval(e).value)
  {
    match e
    case Constant(lit) =>
      var c := IntOf(lit).value;
      assert Sum([if negated then -c else c]) == (if negated then -c else c) + Sum([]);
    case UnaryOp(_, x) =>
      EvalIsSignedSum(x, !negated);
    case BinOp(l, op, r) =>
      EvalIsSignedSum(l, negated);
      EvalIsSignedSum(r, if op == Sub then !negated else negated);
      SumConcat(SignedConstants(l, negated), SignedConstants(r, if op == Sub then !negated else negated));
  }

}

=== FILE: row_codec.dfy ===
/** The field-level CSV row codec of the ledger file: a row is written as
    `[name, value, flag]` (main.py:184-187) and read back as
    `(row[0], int(row[1]), row[2] == "True")` (main.py:57-59). CSV quoting and
    line splitting belong to Python's `csv` module and are not modelled. */
module RowCodec {
  import opened Wrappers
  import opened Digits
  import opened Ledger

  type Fields = seq<string>

  /** `str(flag)` for a Python bool. */
  function FlagText(flag: bool): string {
    if flag then "True" else "False"
  }

  function EncodeRow(row: Row): (f: Fields)
    ensures |f| == 3 && f[0] == row.name
  {
    [row.name, IntToString(row.value), FlagText(row.flag)]
  }

  /** None: `row[0]`, `row[1]` or `row[2]` raises `IndexError`, or `int(row[1])`
      raises `ValueError`. Columns after the third are ignored; any third column
      other than "True" reads as False. */
  function DecodeRow(f: Fields): (r: Option<Row>)
    ensures r.Some? <==> |f| >= 3 && ParseInt(f[1]).Some?
    ensures r.Some? ==> r.value.name == f[0] && r.value.value == ParseInt(f[1]).value
    ensures r.Some? ==> (r.value.flag <==> f[2] == "True")
  {
    if |f| < 3 then None
    else
      match ParseInt(f[1])
      case None => None
      case Some(v) => Some(Row(f[0], v, f[2] == "True"))
  }

  /** Writing a row and reading it back recovers the original tuple. */
  lemma RowRoundTrip(row: Row)
    ensures DecodeRow(EncodeRow(row)) == Some(row)
  {
  }

  /** `writer.writerow` for every row of the ledger, in order. */
  function EncodeRows(data: seq<Row>): (file: seq<Fields>)
    ensures |file| == |data|
    ensures forall i :: 0 <= i < |data| ==> file[i] == EncodeRow(data[i])
  {
    seq(|data|, i requires 0 <= i < |data| => EncodeRow(data[i]))
  }

  /** The list comprehension over `csv.reader`: fails as a whole when any row fails. */
  function DecodeRows(file: seq<Fields>): (r: Option<seq<Row>>)
    ensures r.Some? ==> |r.value| == |file|
    ensures r.Some? <==> forall i :: 0 <= i < |file| ==> DecodeRow(file[i]).Some?
    ensures r.Some? ==> forall i :: 0 <= i < |file| ==> Some(r.value[i]) == DecodeRow(file[i])
    decreases |file|
  {
    if |file| == 0 then Some([])
    else
      match DecodeRow(file[|file| - 1])
      case None => None
      case Some(last) =>
        match DecodeRows(file[..|file| - 1])
        case None => None
        case Some(init) => Some(init + [last])
  }

  /** Saving the ledger and loading the file again gives back the same ledger. */
  lemma FileRoundTrip(data: seq<Row>)
    ensures DecodeRows(EncodeRows(data)) == Some(data)
  {
    var file := EncodeRows(data);
    forall i | 0 <= i < |file|
      ensures DecodeRow(file[i]) == Some(data[i])
    {
      RowRoundTrip(data[i]);
    }
    var back := DecodeRows(file).value;
    assert |back| == |data|;
    assert forall i :: 0 <= i < |data| ==> back[i] == data[i];
    assert back == data;
  }

}

=== FILE: validators.dfy ===
/** The answer validators `is_yes_no` and `is_index` (main.py:44-49) and the
    position `int(command) - 1` that an accepted index answer selects. */
module Validators {
  import opened Digits

  /** `is_yes_no`: exactly the one-letter answers "y" and "n". */
  function IsYesNo(c: string): (ok: bool)
    ensures ok <==> c == "y" || c == "n"
    ensures ok ==> |c| == 1
  {
    c in ["y", "n"]
  }

  /** `is_index(size)(c)`: a digit string whose value lies in 1..size. */
  function IsIndex(size: int, c: string): (ok: bool)
    ensures ok ==> size >= 1 && |c| > 0
  {
    IsNumeral(c) && 0 < NumeralValue(c) <= size
  }

  /** `int(command) - 1` for an accepted answer: always a valid list position. */
  function Position(size: int, c: string): (p: nat)
    requires IsIndex(size, c)
    ensures p < size
    ensures IsNumeral(c) && p + 1 == NumeralValue(c)
  {
    NumeralValue(c) - 1
  }

  /** The canonical numeral of `k` is accepted exactly when 1 <= k <= size, so every
      listed entry number can be typed and no other number is taken. */
  lemma IndexOfNumeral(size: int, k: nat)
    ensures IsIndex(size, Numeral(k)) <==> 1 <= k <= size
  {
  }

  /** Leading zeros are allowed: "01" selects the same entry as "1". */
  lemma LeadingZerosAccepted(size: int, c: string)
    requires IsNumeral(c)
    ensures IsIndex(size, "0" + c) <==> IsIndex(size, c)
    ensures IsIndex(size, c) ==> Position(size, "0" + c) == Position(size, c)
  {
    LeadingZero(c);
  }

}

=== FILE: wrappers.dfy ===
/** The Some/None datatype used for every operation of the model that can fail
    or that can be left waiting for an answer the console never accepts. */
module Wrappers {

  datatype Option<+T> = None | Some(value: T)

}
